=== FILE: README.md ===
# Task manager client state, modelled in Dafny

This project models the logic at the centre of a React/Redux task-manager
client:

- the **tasks slice**: a list of tasks plus one shared `loading` flag and one
  `error` slot. It is driven by the pending/fulfilled/rejected actions of the
  create, delete, update and fetch thunks, and by `setTasks`;
- the **auth slice**: user, token, `authenticated`, `loading` and `error`. It
  is driven by the signup and login thunks and by the synchronous `logout`;
- the **derived view** of the task page and table:
  - the conjunctive filter;
  - the summary counts;
  - page slicing and the pager controls;
  - the due-date proximity label;
  - the "mark complete" update;
- the **editing logic** of the create/edit dialog and of the filter panel:
  - form initialisation and reset;
  - field-local edits;
  - validation;
  - what a submission dispatches;
  - clearing filters and the "active filters" flag.

Everything is a pure function over immutable datatypes. A thunk is the
sequence of actions it dispatches, `[pending, fulfilled]` or
`[pending, rejected]`. Which of the two depends on an abstract `ApiResult`
(`Ok(payload)` or `Err(message)`) that stands for the network call.

Files:

- `store.dfy`: a reducer folded over a sequence of dispatched actions.
- `seqs.dfy`: order-preserving filter, counting and the subsequence relation.
- `strings.dfy`: ASCII lower-casing, substring search, JavaScript's `trim`
  whitespace set, and the day key `s.split('T')[0]`.
- `task_model.dfy`: the task record, the form fields and the `Option` and
  `ApiResult` wrappers.
- `task_slice.dfy`, `auth_slice.dfy`: the two reducers.
- `tasks_page.dfy`, `task_table.dfy`, `task_dialog.dfy`, `task_filters.dfy`:
  the view logic of the matching components.

Some of the code's behaviour is easy to misread. The model keeps it as written:

- `authenticated` is not "true iff a token is present". `logout` clears the
  token but keeps `authenticated`, and no action ever sets it back to false.
  `AuthSlice.LogoutAfterLoginStaysAuthenticated` exhibits the state. Only
  "token present implies authenticated" holds on reachable states.
- Login-fulfilled does not clear `error`. Login-pending already set it to
  null, so a completed login thunk still ends with no error.
- A failed signup is not a no-op. It sets `loading` to false and records
  the message.
- The "N days left" label covers offsets 2 to 7, because an offset of 1 is
  "Tomorrow".

## Model

| member | source | states |
|---|---|---|
| `TaskSlice.Reduce` | src/redux/slices/taskSlice.js:32-88 | Every pending case sets loading and clears the error, and every rejected case clears loading and records the message. Neither touches the tasks. Fulfilled cases clear loading and keep the error. Create appends the payload after an unchanged prefix. Delete and update go through `RemoveById` and `ReplaceById`. Fetch replaces the list. `setTasks` replaces it and leaves loading and error alone |
| `TaskSlice.RemoveById` | src/redux/slices/taskSlice.js:54-57 | The result is an order-preserving subsequence with no task carrying the id. Every other task keeps its multiplicity, so exactly the matching tasks are removed |
| `TaskSlice.FindIndex` | src/redux/slices/taskSlice.js:68 | The result is -1 exactly when no task has the id. Otherwise it is the first index whose task has the id |
| `TaskSlice.ReplaceById` | src/redux/slices/taskSlice.js:66-72 | Length is kept. Only the first index with the payload's id becomes the payload, and every other index is unchanged. With no such id the list is unchanged |
| `TaskSlice.ReplaceKeepsPosition` | src/redux/slices/taskSlice.js:66-72 | After an update, the updated id is found at the same index as before |
| `TaskSlice.CreateBodyIgnoresStatus` | src/redux/slices/taskSlice.js:4-7 | The create request carries title, description, dueDate and priority only. Changing the argument's status leaves the request unchanged |
| `TaskSlice.Lifecycle` | src/redux/slices/taskSlice.js:4-22 | A thunk dispatches exactly two actions: pending for its operation, then the fulfilled action on success or a rejection carrying the message on failure |
| `TaskSlice.CreateTaskAsync` | src/redux/slices/taskSlice.js:4-7 | Pending create, then fulfilled with the task the server returns, or rejected with the message |
| `TaskSlice.DeleteTaskAsync` | src/redux/slices/taskSlice.js:9-12 | Pending delete, then fulfilled with the id it was given whatever the server's response holds, or rejected with the message |
| `TaskSlice.UpdateTaskAsync` | src/redux/slices/taskSlice.js:14-17 | Pending update, then fulfilled with the task the server returns, or rejected with the message |
| `TaskSlice.FetchTasksAsync` | src/redux/slices/taskSlice.js:19-22 | Pending fetch, then fulfilled with the server's task list, or rejected with the message |
| `TaskSlice.SettledCall` | src/redux/slices/taskSlice.js:4-22 | After any thunk settles, loading is false. A failure leaves the state as before except for loading false and the message recorded. A success leaves no error |
| `TaskSlice.CreateAppends` | src/redux/slices/taskSlice.js:42-45 | A successful create ends with the old list plus the server's task at the end, and no error |
| `TaskSlice.CreateFromEmptyStore` | src/redux/slices/taskSlice.js:26-45 | From the initial empty store, a successful create leaves a store holding exactly the server's task, not loading and with no error |
| `TaskSlice.RemoveAbsentIsNoop` | src/redux/slices/taskSlice.js:54-57 | Deleting an id no task has leaves the list unchanged |
| `TaskSlice.DeleteIdempotent` | src/redux/slices/taskSlice.js:9-12 | Running the delete thunk twice for one id gives the same whole state as running it once |
| `AuthSlice.Reduce` | src/redux/slices/authSlice.js:24-57 | Pending cases set loading, clear the error and change nothing else. Signup-fulfilled sets only the user and loading. Login-fulfilled sets the token from the payload, sets authenticated, and builds the user from userId, email, name and role. Rejected cases keep user, token and authenticated. Logout nulls user, token and error and keeps authenticated and loading. No step turns authenticated off, and a token only changes to a value alongside authenticated |
| `AuthSlice.SignupThunk` | src/redux/slices/authSlice.js:4-7 | Pending signup, then fulfilled with the response's user, or rejected with the message |
| `AuthSlice.LoginThunk` | src/redux/slices/authSlice.js:9-12 | Pending login, then fulfilled with the whole login response, or rejected with the message |
| `AuthSlice.AuthenticatedIsSticky` | src/redux/slices/authSlice.js:24-57 | Once authenticated, every action sequence keeps it authenticated |
| `AuthSlice.TokenInvariantPreserved` | src/redux/slices/authSlice.js:24-57 | Every action sequence preserves "token present implies authenticated" |
| `AuthSlice.TokenImpliesAuthenticatedWhenReachable` | src/redux/slices/authSlice.js:16-22 | Every state reachable from the initial state with a token is authenticated |
| `AuthSlice.LogoutAfterLoginStaysAuthenticated` | src/redux/slices/authSlice.js:24-28 | A login followed by logout leaves no token, but authenticated stays true and the private-route guard still lets the user through |
| `AuthSlice.SignupDoesNotAuthenticate` | src/redux/slices/authSlice.js:36-39 | A signup from the initial state stores the user with no token and no session |
| `AuthSlice.FailedLoginKeepsSession` | src/redux/slices/authSlice.js:54-57 | A failed login thunk changes only loading, to false, and error, to the message |
| `AuthSlice.SuccessfulLogin` | src/redux/slices/authSlice.js:48-53 | A successful login thunk ends with the payload's user and token, authenticated, not loading and no error |
| `Strings.Contains` | src/pages/Tasks.jsx:31-32 | True exactly when the pattern occurs at some index, as `includes` does. The empty pattern occurs everywhere |
| `Strings.Trim` | src/components/TaskDialog.jsx:60 | The result is a contiguous piece of the input. It is empty exactly when every character is JavaScript whitespace. A non-empty result neither starts nor ends with whitespace, and everything cut from either end is whitespace, so the result is `s.trim()` |
| `Strings.DayKey` | src/components/TaskDialog.jsx:17 | The result is a prefix without 'T', and it is either the whole string or stops at its first 'T' |
| `Strings.DayKeyOfPlainDay` | src/components/TaskDialog.jsx:31 | A string without 'T' is its own day key |
| `TasksPage.FilteredTasks` | src/pages/Tasks.jsx:25-35 | The result is an order-preserving subsequence of the tasks. A task is in it exactly when it satisfies every non-empty criterion: priority, due-date day key, status, and case-insensitive search in the title or the present description. Each matching task occurs as often as in the store, and a non-matching one not at all |
| `TasksPage.NoFiltersKeepsEverything` | src/pages/Tasks.jsx:15 | With the initial all-empty filters, the view is the whole task list |
| `TasksPage.NarrowsMatches` | src/pages/Tasks.jsx:26-34 | A filter spec that fixes every field the other one fixes admits only tasks the other admits |
| `TasksPage.NarrowingIsMonotone` | src/pages/Tasks.jsx:26-34 | A narrower filter spec yields a subsequence of the wider one's result, never a larger one |
| `TasksPage.SettingAFieldNarrows` | src/components/TaskFilters.jsx:6-8 | Setting a previously empty filter field narrows the spec |
| `TasksPage.SearchWithoutDescription` | src/pages/Tasks.jsx:30-32 | A task with no description passes a non-empty search exactly when its lower-cased title contains the lower-cased search |
| `TasksPage.ComputeStats` | src/pages/Tasks.jsx:38-43 | The total is the list length. Completed, pending and high-priority are the numbers of positions whose task is complete, incomplete, and high-priority and incomplete. Completed plus pending is at most the total, and equal to it when every status is complete or incomplete. High-priority open tasks never outnumber open tasks |
| `Seqs.CountIsPositions` | src/pages/Tasks.jsx:38-43 | `filter(p).length` is the number of positions whose element satisfies p |
| `Seqs.CountDisjoint` | src/pages/Tasks.jsx:40-41 | Counts under two exclusive predicates add up to at most the length, and to exactly the length when one of them always holds |
| `TaskFilters.NoFilters` | src/pages/Tasks.jsx:15 | Every field of the initial filter spec is empty |
| `TaskFilters.HandleFilterChange` | src/components/TaskFilters.jsx:6-8 | The named field takes the value and the other three are unchanged |
| `TaskFilters.HandleSearchChange` | src/components/TaskFilters.jsx:10-12 | Only the search text changes |
| `TaskFilters.ClearFilters` | src/components/TaskFilters.jsx:14-16 | Every field becomes empty |
| `TaskFilters.HasActiveFilters` | src/components/TaskFilters.jsx:18 | True exactly when some field is non-empty |
| `TaskFilters.ClearedHasNoActiveFilters` | src/components/TaskFilters.jsx:14-18 | No filter is active right after clearing |
| `TaskFilters.RemoveChip` | src/components/TaskFilters.jsx:119-165 | A chip's remove button empties its own field and leaves the other three unchanged |
| `TaskFilters.RemoveChipActivity` | src/components/TaskFilters.jsx:114-165 | After removing a chip, filters are still active exactly when some other field was set |
| `TaskTable.RowsPerPage` | src/components/TaskTable.jsx:25 | A page has 9 rows in grid mode and 10 otherwise |
| `TaskTable.Paginate` | src/components/TaskTable.jsx:102 | A page has at most the row count, and its k-th row is task `page*rpp + k`. Its size is `min(rpp, len - page*rpp)`, or 0 when the page starts past the end |
| `TaskTable.TotalPages` | src/components/TaskTable.jsx:103 | The ceiling of len / rpp: the pages hold every task, and one page fewer would not |
| `TaskTable.PagesCoverExactlyOnce` | src/components/TaskTable.jsx:102-103 | Concatenating pages 0 to totalPages-1 reproduces the filtered list exactly |
| `TaskTable.PageOfIndex` | src/components/TaskTable.jsx:102-103 | Task i is on page i / rpp at row i % rpp, that page exists, and no other page's range contains i |
| `TaskTable.StalePageIsEmpty` | src/components/TaskTable.jsx:24 | A page index at or past totalPages shows an empty slice. If the pager is shown there, its range is inverted ("Showing 21 to 15 of 15"), because the start passes the end |
| `TaskTable.PagerView` | src/components/TaskTable.jsx:315-357 | The pager is hidden exactly when len <= rpp, which is totalPages <= 1. Previous is disabled exactly on page 0. Next is disabled exactly when the next page would start at or past the end. On an existing page, 1 <= first <= last <= len |
| `TaskTable.PagerRangeMatchesSlice` | src/components/TaskTable.jsx:322 | On an existing page, the "Showing a to b" range counts exactly the rows of the slice, and the k-th row on screen is the task at 1-based position a + k of the filtered list. The 0-based indices from a - 1 up to b are exactly the in-range indices on that page |
| `TaskTable.Mount` | src/components/TaskTable.jsx:24-25 | A freshly mounted table is on page 0, with 9 rows per page in grid mode and 10 otherwise |
| `TaskTable.OpenPage` | src/pages/Tasks.jsx:59-68 | The table is mounted exactly when the store is not loading, and then in its initial state |
| `TaskTable.Step` | src/pages/Tasks.jsx:59-68 | A store action goes through the tasks reducer, and the toggle sets the view mode. The table is mounted exactly when the store is not loading. A table that was unmounted mounts afresh with the current view mode. A mounted table changes only on a page button and otherwise keeps its page and rows per page. So a filter edit keeps the page, and a list the filters have shrunk can leave the table on a page past the end |
| `TaskTable.RowsPerPageFixedWhileMounted` | src/components/TaskTable.jsx:25 | While no thunk starts, the table stays mounted and keeps its rows per page, whatever happens to the view mode, the filters or the page |
| `TaskTable.ThunkRemountsTable` | src/pages/Tasks.jsx:59-68 | After any settled thunk, the store is the thunk's result and the table is freshly mounted: page 0, rows per page from the current view mode |
| `TaskTable.DeleteResetsPagingToCurrentMode` | src/components/TaskTable.jsx:24-25 | On a grid page turned to page 2, switching to list keeps 9 rows per page. A following delete, successful or not, leaves the table on page 0 with 10 rows |
| `TaskTable.ClassifyDueDate` | src/components/TaskTable.jsx:88-99 | A missing or empty date gives '-'. Otherwise: offset 0 is Today, 1 is Tomorrow, negative is overdue by -d days, 2 to 7 is "d left", and above 7 is the calendar date. The branches are disjoint and exhaustive |
| `TaskTable.MarkCompleteArgs` | src/components/TaskTable.jsx:44-54 | The update keeps the task's id, and the task it describes is the original with status 'complete' |
| `TaskTable.MarkCompleteInPlace` | src/components/TaskTable.jsx:44-54 | If the server echoes the update, the task becomes complete at its own index, every other task is unchanged, and the store ends with no error and not loading |
| `TaskDialog.BlankForm` | src/components/TaskDialog.jsx:21 | Title, description and due date are empty, priority is medium and status is incomplete |
| `TaskDialog.FormFromTask` | src/components/TaskDialog.jsx:12-20 | Title, priority and status are copied and a missing description becomes ''. The due date is '' when absent. Otherwise it is the prefix of the task's date up to its first 'T', or the whole date when it has none |
| `Strings.DayKeyIsUnique` | src/components/TaskDialog.jsx:17 | A 'T'-free prefix that is the whole string or stops at a 'T' is the day key, so `DayKey`'s and `FormFromTask`'s contracts pin `split('T')[0]` |
| `TaskDialog.InitialForm` | src/components/TaskDialog.jsx:12-22 | In edit mode with a task the form is the task's (`FormFromTask`); otherwise it is `{'', '', '', 'medium', 'incomplete'}` |
| `TaskDialog.OnOpen` | src/components/TaskDialog.jsx:26-45 | Errors are cleared. Edit mode with a task loads the task's form, and create mode loads the blank form. Edit mode without a task keeps the form |
| `TaskDialog.SetField` | src/components/TaskDialog.jsx:49 | Only the named field changes |
| `TaskDialog.InputChange` | src/components/TaskDialog.jsx:47-55 | Only the named field changes, and that field's error is no longer shown. Every other error is unchanged |
| `TaskDialog.Validate` | src/components/TaskDialog.jsx:57-73 | A title error is recorded exactly when the title is all whitespace. A due-date error is recorded exactly when a date is given and its day is before today's, both days counted in one calendar. No other key is recorded |
| `TaskDialog.IsValid` | src/components/TaskDialog.jsx:74-75 | True exactly when the title has a non-whitespace character and the due date is empty or not before today |
| `TaskDialog.TodayIsNotPast` | src/components/TaskDialog.jsx:64-72 | With both days counted in one calendar, today's day or a later one never gets the due-date error |
| `TaskDialog.AsWrittenAgreesEastOfUtc` | src/components/TaskDialog.jsx:65-69 | At UTC or east of it, comparing UTC midnight of the chosen day with local midnight of today flags exactly the days before today |
| `TaskDialog.AsWrittenRejectsTodayWestOfUtc` | src/components/TaskDialog.jsx:65-69 | West of UTC, the same comparison flags every day up to and including today, so today's date is rejected |
| `TaskDialog.TodayRejectedInUtcMinusFive` | src/components/TaskDialog.jsx:65-69 | In UTC-5, a form dated today fails the written comparison but passes `Validate` |
| `TaskDialog.Submit` | src/components/TaskDialog.jsx:78-96 | An invalid form is blocked with the validation errors and dispatches nothing. A valid create sends the form's four create fields. A valid edit with a task sends an update of that task's id carrying the form's five fields |
| `TaskDialog.Close` | src/components/TaskDialog.jsx:98-108 | Errors are cleared and the form is the create-mode initial form |
| `TaskDialog.ResetsAgree` | src/components/TaskDialog.jsx:35-42 | Closing, opening in create mode and create-mode initialisation all give `{'', '', '', 'medium', 'incomplete'}` |

## Left out

- The network calls in `src/redux/api/taskApi.js` and `src/redux/api/authApi.js` are not modelled. Each is an abstract `ApiResult`. The fixed error strings they throw are not modelled, and the token sent with each request is not modelled either.
- The redux-persist configuration and rehydration (`src/redux/store.js`, `src/main.jsx`) are left out. Their behaviour lives in libraries outside this code.
- The navigation bar's logout (`src/components/Navbar.tsx`) is left out. It dispatches `{type: 'logout'}`, which does not match the slice's `auth/logout` action, and it removes local storage. The model does not assume that path runs the `logout` reducer.
- Routing (`src/App.jsx`, `src/hooks/PrivateRoute.jsx`) is reduced to `AuthSlice.CanAccessPrivateRoutes`, which is `authenticated`.
- Concurrent thunks are not modelled. Reducers are pure transitions over arbitrary action sequences, and any interleaving of in-flight calls is one such sequence.
- JavaScript `Date` arithmetic is not modelled: parsing, time zones, `toISOString`, `Math.ceil` over milliseconds and `toLocaleDateString`. Day offsets and day numbers are integer inputs, and an unparseable date string is outside the model.
- TaskDialog.Validate: `dueDay` and `today` are day numbers in one calendar. The program itself compares UTC midnight of the chosen day with local midnight of today, so in zones behind UTC it rejects today's date; `DueDateInPastAsWritten` models that comparison (see Findings).
- TasksPage.MatchesDueDate: a task without a due date never matches a non-empty date filter. The source passes such a value to `new Date`, which gives the epoch for `null` and throws for `undefined`.
- Unicode case mapping is not modelled. `toLowerCase` is ASCII lower-casing.
- `TaskTable.ClassifyDueDate` returns a label, not its text. The number formatting and the colour classes are presentation.
- Presentation code is not modelled: markup, styling, icons, and the colour and icon lookups (`getPriorityColor`, `getPriorityIcon`, `getStatusIcon`).
- What happens after a dispatch settles in the components is not modelled: `onClose`, `console.error`, and the confirmation prompt before a delete.
- `const { token } = useSelector((state) => state.auth.token)` (`src/pages/Tasks.jsx:13`, `src/components/TaskTable.jsx:23`, `src/components/TaskDialog.jsx:10`) destructures the stored token itself. While a token string is stored, the local `token` is undefined. While the stored token is `null` (the initial state, or after `logout`) or `undefined` (a login response without one), destructuring throws a TypeError and the component fails to render. So after `logout` the private-route guard lets the user through, but the task page then throws. Rendering is not modelled and the token is an opaque input, so neither case is modelled.

## Findings

| source | as written | input that shows it | evidently intended | confidence | as-written member | corrected member |
|---|---|---|---|---|---|---|
| src/components/TaskDialog.jsx:65-69 | `new Date(dueDate)` is midnight UTC of the chosen day, while `today.setHours(0,0,0,0)` is local midnight; the dialog errors when the first is earlier | a zone at UTC-5 (offset -300 minutes) with today's date chosen: UTC midnight of today precedes local midnight by five hours, so "Due date cannot be in the past" is shown | a date is in the past only when its day is before today's | medium, not executed | `TaskDialog.AsWrittenRejectsTodayWestOfUtc` (on `TaskDialog.DueDateInPastAsWritten`), `TaskDialog.TodayRejectedInUtcMinusFive` | `TaskDialog.Validate`, with `TaskDialog.TodayIsNotPast` |

=== FILE: auth_slice.dfy ===
/**
 The authentication store: the auth slice's state, the actions of its
 `signup` and `login` thunks and of the synchronous `logout`, and the
 reducer. Routes behind the private-route guard are reachable exactly when
 `authenticated` holds.
 */
module AuthSlice {
  import opened TaskModel
  import Store

  /** The user object kept in the store; a field the server omitted is `None`. */
  datatype User = User(userId: Option<string>, email: Option<string>, name: Option<string>, role: Option<string>)

  /** What the login call resolves to: the server's token, id, name and role, and the email the user typed. */
  datatype LoginPayload = LoginPayload(
    token: Option<string>,
    userId: Option<string>,
    email: Option<string>,
    name: Option<string>,
    role: Option<string>)

  datatype AuthState = AuthState(
    user: Option<User>,
    token: Option<string>,
    authenticated: bool,
    loading: bool,
    error: Option<string>)

  function InitialState(): AuthState
  {
    AuthState(None, None, false, false, None)
  }

  datatype AuthAction =
    | SignupPending
    | SignupFulfilled(signedUp: Option<User>)
    | SignupRejected(signupMessage: string)
    | LoginPending
    | LoginFulfilled(login: LoginPayload)
    | LoginRejected(loginMessage: string)
    | Logout

  /** The user object login-fulfilled builds from the payload's four identity fields. */
  function UserOf(p: LoginPayload): User
  {
    User(p.userId, p.email, p.name, p.role)
  }

  /** One reducer step of the auth slice. */
  function Reduce(s: AuthState, a: AuthAction): (r: AuthState)
    ensures s.authenticated ==> r.authenticated
    ensures (a.SignupPending? || a.LoginPending?) ==> r == s.(loading := true, error := None)
    ensures a.SignupFulfilled? ==>
      r.user == a.signedUp && !r.loading
      && r.token == s.token && r.authenticated == s.authenticated && r.error == s.error
    ensures a.SignupRejected? ==>
      r.error == Some(a.signupMessage) && !r.loading
      && r.user == s.user && r.token == s.token && r.authenticated == s.authenticated
    ensures a.LoginFulfilled? ==>
      r.token == a.login.token && r.authenticated && !r.loading
      && r.user == Some(UserOf(a.login)) && r.error == s.error
    ensures a.LoginRejected? ==>
      r.error == Some(a.loginMessage) && !r.loading
      && r.user == s.user && r.token == s.token && r.authenticated == s.authenticated
    ensures a.Logout? ==>
      r.user == None && r.token == None && r.error == None
      && r.authenticated == s.authenticated && r.loading == s.loading
    ensures r.token != s.token ==> r.token == None || r.authenticated
  {
    match a
    case SignupPending => s.(loading := true, error := None)
    case SignupFulfilled(u) => s.(loading := false, user := u)
    case SignupRejected(m) => s.(loading := false, error := Some(m))
    case LoginPending => s.(loading := true, error := None)
    case LoginFulfilled(p) =>
      s.(loading := false, user := Some(UserOf(p)), token := p.token, authenticated := true)
    case LoginRejected(m) => s.(loading := false, error := Some(m))
    case Logout => s.(user := None, token := None, error := None)
  }

  /** The state after dispatching `actions` in order. */
  function Run(s: AuthState, actions: seq<AuthAction>): AuthState
  {
    Store.RunAll(Reduce, s, actions)
  }

  /** `signup`: pending, then fulfilled with the response's `user` field or rejected. */
  function SignupThunk(response: ApiResult<Option<User>>): (r: seq<AuthAction>)
    ensures |r| == 2 && r[0] == SignupPending
    ensures response.Ok? ==> r[1] == SignupFulfilled(response.payload)
    ensures response.Err? ==> r[1] == SignupRejected(response.message)
  {
    match response
    case Ok(u) => [SignupPending, SignupFulfilled(u)]
    case Err(m) => [SignupPending, SignupRejected(m)]
  }

  /** `login`: pending, then fulfilled with the login payload or rejected. */
  function LoginThunk(response: ApiResult<LoginPayload>): (r: seq<AuthAction>)
    ensures |r| == 2 && r[0] == LoginPending
    ensures response.Ok? ==> r[1] == LoginFulfilled(response.payload)
    ensures response.Err? ==> r[1] == LoginRejected(response.message)
  {
    match response
    case Ok(p) => [LoginPending, LoginFulfilled(p)]
    case Err(m) => [LoginPending, LoginRejected(m)]
  }

  /** Whether the private-route guard renders its children. */
  predicate CanAccessPrivateRoutes(s: AuthState)
  {
    s.authenticated
  }

  /** A present token always comes with `authenticated`. */
  predicate TokenImpliesAuthenticated(s: AuthState)
  {
    s.token.Some? ==> s.authenticated
  }

  /** No action sequence ever turns `authenticated` back off. */
  lemma {:induction false} AuthenticatedIsSticky(s: AuthState, actions: seq<AuthAction>)
    requires s.authenticated
    ensures Run(s, actions).authenticated
    decreases |actions|
  {
    if |actions| > 0 {
      AuthenticatedIsSticky(Reduce(s, actions[0]), actions[1..]);
    }
  }

  /** Every step keeps "token present implies authenticated". */
  lemma {:induction false} TokenInvariantPreserved(s: AuthState, actions: seq<AuthAction>)
    requires TokenImpliesAuthenticated(s)
    ensures TokenImpliesAuthenticated(Run(s, actions))
    decreases |actions|
  {
    if |actions| > 0 {
      TokenInvariantPreserved(Reduce(s, actions[0]), actions[1..]);
    }
  }

  /** From the initial state, every reachable state with a token is authenticated. */
  lemma TokenImpliesAuthenticatedWhenReachable(actions: seq<AuthAction>)
    ensures TokenImpliesAuthenticated(Run(InitialState(), actions))
  {
    TokenInvariantPreserved(InitialState(), actions);
  }

  /**
   The converse fails: a successful login followed by `logout` leaves no
   token but `authenticated` still true, so the private-route guard still
   lets the user through (what the guarded pages then render is not modelled).
   */
  lemma LogoutAfterLoginStaysAuthenticated(s: AuthState, p: LoginPayload)
    ensures Reduce(Run(s, LoginThunk(Ok(p))), Logout).token == None
    ensures Reduce(Run(s, LoginThunk(Ok(p))), Logout).authenticated
    ensures CanAccessPrivateRoutes(Reduce(Run(s, LoginThunk(Ok(p))), Logout))
  {
    Store.RunAllPair(Reduce, s, LoginPending, LoginFulfilled(p));
  }

  /** Signing up alone stores the user but neither a token nor a session. */
  lemma SignupDoesNotAuthenticate(u: Option<User>)
    ensures Run(InitialState(), SignupThunk(Ok(u))).user == u
    ensures Run(InitialState(), SignupThunk(Ok(u))).token == None
    ensures !CanAccessPrivateRoutes(Run(InitialState(), SignupThunk(Ok(u))))
  {
    Store.RunAllPair(Reduce, InitialState(), SignupPending, SignupFulfilled(u));
  }

  /** A failed login keeps the identity and session from before the call and records the message. */
  lemma FailedLoginKeepsSession(s: AuthState, m: string)
    ensures Run(s, LoginThunk(Err(m))) == s.(loading := false, error := Some(m))
  {
    Store.RunAllPair(Reduce, s, LoginPending, LoginRejected(m));
  }

  /** A successful login ends with the server's token, a session, and no error. */
  lemma SuccessfulLogin(s: AuthState, p: LoginPayload)
    ensures Run(s, LoginThunk(Ok(p))) == AuthState(Some(UserOf(p)), p.token, true, false, None)
  {
    Store.RunAllPair(Reduce, s, LoginPending, LoginFulfilled(p));
  }
}

=== FILE: seqs.dfy ===
/**
 Sequence utilities shared by the reducers and the derived view: an
 order-preserving filter (JavaScript's `Array.prototype.filter`), counting
 through it, and the subsequence relation used to state what filtering keeps.
 */
module Seqs {

  /** `a` can be obtained from `b` by deleting elements, keeping the order. */
  ghost predicate IsSubsequence<T>(a: seq<T>, b: seq<T>)
    decreases |b|
  {
    if |a| == 0 then true
    else if |b| == 0 then false
    else (a[0] == b[0] && IsSubsequence(a[1..], b[1..])) || IsSubsequence(a, b[1..])
  }

  /** The elements of `s` that satisfy `keep`, in their original order. */
  function Filter<T>(s: seq<T>, keep: T -> bool): (r: seq<T>)
    ensures |r| <= |s|
    ensures forall i :: 0 <= i < |r| ==> r[i] in s && keep(r[i])
    ensures forall i :: 0 <= i < |s| && keep(s[i]) ==> s[i] in r
    decreases |s|
  {
    if |s| == 0 then []
    else
      assert s == [s[0]] + s[1..];
      if keep(s[0]) then [s[0]] + Filter(s[1..], keep) else Filter(s[1..], keep)
  }

  /** How many elements of `s` satisfy `p` (`s.filter(p).length`). */
  function Count<T>(s: seq<T>, p: T -> bool): nat
  {
    |Filter(s, p)|
  }

  /** The positions of `s` whose element satisfies `p`. */
  function Positions<T>(s: seq<T>, p: T -> bool): set<int>
  {
    set i | 0 <= i < |s| && p(s[i])
  }

  lemma {:induction false} SubsequenceLength<T>(a: seq<T>, b: seq<T>)
    requires IsSubsequence(a, b)
    ensures |a| <= |b|
    decreases |b|
  {
    if |a| > 0 {
      if a[0] == b[0] && IsSubsequence(a[1..], b[1..]) {
        SubsequenceLength(a[1..], b[1..]);
      } else {
        SubsequenceLength(a, b[1..]);
      }
    }
  }

  lemma {:induction false} SubsequenceReflexive<T>(s: seq<T>)
    ensures IsSubsequence(s, s)
    decreases |s|
  {
    if |s| > 0 {
      SubsequenceReflexive(s[1..]);
    }
  }

  /** Filtering deletes elements and never reorders them. */
  lemma {:induction false} FilterIsSubsequence<T>(s: seq<T>, keep: T -> bool)
    ensures IsSubsequence(Filter(s, keep), s)
    decreases |s|
  {
    if |s| > 0 {
      FilterIsSubsequence(s[1..], keep);
      var rest := Filter(s[1..], keep);
      if keep(s[0]) {
        assert Filter(s, keep) == [s[0]] + rest;
        assert ([s[0]] + rest)[1..] == rest;
      } else {
        assert Filter(s, keep) == rest;
        if |rest| > 0 {
          assert IsSubsequence(rest, s[1..]);
        }
      }
    }
  }

  /** Every element that satisfies `keep` is kept as many times as it occurs; the others are dropped. */
  lemma {:induction false} FilterMultiplicity<T>(s: seq<T>, keep: T -> bool, x: T)
    ensures multiset(Filter(s, keep))[x] == if keep(x) then multiset(s)[x] else 0
    decreases |s|
  {
    if |s| > 0 {
      FilterMultiplicity(s[1..], keep, x);
      assert s == [s[0]] + s[1..];
      assert multiset(s) == multiset([s[0]]) + multiset(s[1..]);
      if keep(s[0]) {
        assert multiset(Filter(s, keep)) == multiset([s[0]]) + multiset(Filter(s[1..], keep));
      }
    }
  }

  /** A filter that keeps everything is the identity. */
  lemma {:induction false} FilterKeepAll<T>(s: seq<T>, keep: T -> bool)
    requires forall i :: 0 <= i < |s| ==> keep(s[i])
    ensures Filter(s, keep) == s
    decreases |s|
  {
    if |s| > 0 {
      assert keep(s[0]);
      FilterKeepAll(s[1..], keep);
      assert s == [s[0]] + s[1..];
    }
  }

  /** Filtering by a stronger predicate is filtering the weaker result again. */
  lemma {:induction false} FilterNarrowing<T>(s: seq<T>, strong: T -> bool, weak: T -> bool)
    requires forall x :: strong(x) ==> weak(x)
    ensures Filter(Filter(s, weak), strong) == Filter(s, strong)
    decreases |s|
  {
    if |s| > 0 {
      FilterNarrowing(s[1..], strong, weak);
      var w := Filter(s[1..], weak);
      if weak(s[0]) {
        assert Filter(s, weak) == [s[0]] + w;
        assert ([s[0]] + w)[1..] == w;
      }
    }
  }

  /** Filtering twice by the same predicate is filtering once. */
  lemma FilterIdempotent<T>(s: seq<T>, keep: T -> bool)
    ensures Filter(Filter(s, keep), keep) == Filter(s, keep)
  {
    FilterNarrowing(s, keep, keep);
  }

  /** A stronger predicate keeps a subsequence of what a weaker one keeps, so never more elements. */
  lemma FilterMonotone<T>(s: seq<T>, strong: T -> bool, weak: T -> bool)
    requires forall x :: strong(x) ==> weak(x)
    ensures IsSubsequence(Filter(s, strong), Filter(s, weak))
    ensures Count(s, strong) <= Count(s, weak)
  {
    FilterNarrowing(s, strong, weak);
    FilterIsSubsequence(Filter(s, weak), strong);
  }

  /** Two predicates that never hold together count at most the whole sequence, and exactly it when one of them always holds. */
  lemma {:induction false} CountDisjoint<T>(s: seq<T>, p: T -> bool, q: T -> bool)
    requires forall x :: !(p(x) && q(x))
    ensures Count(s, p) + Count(s, q) <= |s|
    ensures (forall i :: 0 <= i < |s| ==> p(s[i]) || q(s[i])) ==> Count(s, p) + Count(s, q) == |s|
    decreases |s|
  {
    if |s| > 0 {
      CountDisjoint(s[1..], p, q);
      assert s == [s[0]] + s[1..];
      if forall i :: 0 <= i < |s| ==> p(s[i]) || q(s[i]) {
        assert forall i :: 0 <= i < |s[1..]| ==> s[1..][i] == s[i + 1];
      }
    }
  }

  /** Filtering a sequence extended by one element extends the filtered sequence by it when it is kept. */
  lemma {:induction false} FilterSnoc<T>(s: seq<T>, keep: T -> bool, x: T)
    ensures Filter(s + [x], keep) == Filter(s, keep) + (if keep(x) then [x] else [])
    decreases |s|
  {
    if |s| > 0 {
      assert (s + [x])[0] == s[0];
      assert (s + [x])[1..] == s[1..] + [x];
      FilterSnoc(s[1..], keep, x);
    } else {
      assert s + [x] == [x];
      assert [x][1..] == [];
    }
  }

  /** Extending a sequence by one element adds its index to the positions exactly when it satisfies `p`. */
  lemma PositionsSnoc<T>(s: seq<T>, p: T -> bool, x: T)
    ensures Positions(s + [x], p) == Positions(s, p) + (if p(x) then {|s|} else {})
    ensures |s| !in Positions(s, p)
  {
    var t := s + [x];
    assert forall i :: 0 <= i < |s| ==> t[i] == s[i];
    assert t[|s|] == x;
  }

  /** The count is the number of positions whose element satisfies the predicate. */
  lemma {:induction false} CountIsPositions<T>(s: seq<T>, p: T -> bool)
    ensures Count(s, p) == |Positions(s, p)|
    decreases |s|
  {
    if |s| > 0 {
      var init, x := s[..|s| - 1], s[|s| - 1];
      assert s == init + [x];
      FilterSnoc(init, p, x);
      PositionsSnoc(init, p, x);
      CountIsPositions(init, p);
    }
  }
}

=== FILE: store.dfy ===
/**
 A Redux store seen from outside: a reducer folded over the actions
 dispatched to it, one at a time and in order.
 */
module Store {

  /** The state after dispatching `actions` in order, starting from `s`. */
  function RunAll<S, A>(reduce: (S, A) -> S, s: S, actions: seq<A>): S
    decreases |actions|
  {
    if |actions| == 0 then s else RunAll(reduce, reduce(s, actions[0]), actions[1..])
  }

  /** Dispatching `a` and then `b` is dispatching `a`, then dispatching `b` from where `a` left the store. */
  lemma {:induction false} RunAllConcat<S, A>(reduce: (S, A) -> S, s: S, a: seq<A>, b: seq<A>)
    ensures RunAll(reduce, s, a + b) == RunAll(reduce, RunAll(reduce, s, a), b)
    decreases |a|
  {
    if |a| > 0 {
      assert (a + b)[0] == a[0];
      assert (a + b)[1..] == a[1..] + b;
      RunAllConcat(reduce, reduce(s, a[0]), a[1..], b);
    } else {
      assert a + b == b;
    }
  }

  /** A two-action thunk is two reducer steps. */
  lemma RunAllPair<S, A>(reduce: (S, A) -> S, s: S, a: A, b: A)
    ensures RunAll(reduce, s, [a, b]) == reduce(reduce(s, a), b)
  {
    assert [a, b][1..] == [b];
    assert [b][1..] == [];
    assert RunAll(reduce, s, [a, b]) == RunAll(reduce, reduce(s, a), [b]);
    assert RunAll(reduce, reduce(s, a), [b]) == RunAll(reduce, reduce(reduce(s, a), b), []);
  }
}

=== FILE: strings.dfy ===
/**
 The string operations the task views rely on: ASCII lower-casing
 (`toLowerCase`), substring search (`includes`), whitespace trimming (`trim`)
 and the day key of an ISO date string (`split('T')[0]`).
 */
module Strings {

  /** ASCII lower-casing of one character; every other character is left alone. */
  function LowerChar(c: char): char
  {
    if 'A' <= c <= 'Z' then (c as int + 32) as char else c
  }

  function ToLower(s: string): string
  {
    seq(|s|, i requires 0 <= i < |s| => LowerChar(s[i]))
  }

  predicate IsPrefix(p: string, s: string)
  {
    |p| <= |s| && s[..|p|] == p
  }

  /** `p` occurs in `s` starting at index `i`. */
  predicate OccursAt(s: string, p: string, i: int)
  {
    0 <= i && i + |p| <= |s| && s[i..i + |p|] == p
  }

  /** `s.includes(p)`: the empty string occurs in every string. */
  function Contains(s: string, p: string): (b: bool)
    ensures b <==> exists i :: OccursAt(s, p, i)
    decreases |s|
  {
    if IsPrefix(p, s) then
      assert OccursAt(s, p, 0);
      true
    else if |s| == 0 then
      false
    else
      var rest := Contains(s[1..], p);
      assert forall i :: OccursAt(s[1..], p, i) ==> OccursAt(s, p, i + 1);
      assert forall i :: OccursAt(s, p, i) && i > 0 ==> OccursAt(s[1..], p, i - 1);
      rest
  }

  /**
   The characters JavaScript's `String.prototype.trim` removes: the
   WhiteSpace and LineTerminator productions of the ECMAScript grammar.
   */
  predicate IsWhitespace(c: char)
  {
    || c == '\t' || c == '\n' || c == '\U{000B}' || c == '\U{000C}' || c == '\r' || c == ' '
    || c == '\U{00A0}' || c == '\U{1680}' || ('\U{2000}' <= c <= '\U{200A}')
    || c == '\U{2028}' || c == '\U{2029}' || c == '\U{202F}' || c == '\U{205F}'
    || c == '\U{3000}' || c == '\U{FEFF}'
  }

  /** Drops the leading whitespace of `s`. */
  function TrimStart(s: string): (r: string)
    ensures |r| <= |s| && r == s[|s| - |r|..]
    ensures forall i :: 0 <= i < |s| - |r| ==> IsWhitespace(s[i])
    ensures |r| > 0 ==> !IsWhitespace(r[0])
    decreases |s|
  {
    if |s| > 0 && IsWhitespace(s[0]) then TrimStart(s[1..]) else s
  }

  /** Drops the trailing whitespace of `s`. */
  function TrimEnd(s: string): (r: string)
    ensures |r| <= |s| && r == s[..|r|]
    ensures forall i :: |r| <= i < |s| ==> IsWhitespace(s[i])
    ensures |r| > 0 ==> !IsWhitespace(r[|r| - 1])
    decreases |s|
  {
    if |s| > 0 && IsWhitespace(s[|s| - 1]) then TrimEnd(s[..|s| - 1]) else s
  }

  /** `s.trim()`: a contiguous piece of `s`, empty exactly when every character of `s` is whitespace. */
  function Trim(s: string): (r: string)
    ensures exists i :: OccursAt(s, r, i)
    ensures r == "" <==> forall i :: 0 <= i < |s| ==> IsWhitespace(s[i])
    ensures |r| > 0 ==> !IsWhitespace(r[0]) && !IsWhitespace(r[|r| - 1])
    ensures exists i ::
              && OccursAt(s, r, i)
              && (forall j :: 0 <= j < i ==> IsWhitespace(s[j]))
              && (forall j :: i + |r| <= j < |s| ==> IsWhitespace(s[j]))
  {
    var t := TrimStart(s);
    var r := TrimEnd(t);
    assert OccursAt(s, r, |s| - |t|) by {
      assert r == t[..|r|];
    }
    r
  }

  /**
   The part of `s` before its first 'T' (all of `s` when it has none), which
   is what `s.split('T')[0]` yields for an ISO date-time string.
   */
  function DayKey(s: string): (r: string)
    ensures IsPrefix(r, s)
    ensures 'T' !in r
    ensures |r| == |s| || s[|r|] == 'T'
    decreases |s|
  {
    if |s| == 0 || s[0] == 'T' then "" else [s[0]] + DayKey(s[1..])
  }

  /** A string without 'T' is its own day key, so `DayKey` is idempotent. */
  lemma {:induction false} DayKeyOfPlainDay(s: string)
    requires 'T' !in s
    ensures DayKey(s) == s
    decreases |s|
  {
    if |s| > 0 {
      assert s[0] != 'T';
      assert 'T' !in s[1..] by {
        forall i | 0 <= i < |s[1..]| ensures s[1..][i] != 'T' {
          assert s[1..][i] == s[i + 1];
        }
      }
      DayKeyOfPlainDay(s[1..]);
      assert s == [s[0]] + s[1..];
    }
  }

  /** The three properties of `DayKey`'s contract single it out: it is `s.split('T')[0]` and nothing else. */
  lemma DayKeyIsUnique(s: string, k: string)
    requires IsPrefix(k, s) && 'T' !in k
    requires |k| == |s| || s[|k|] == 'T'
    ensures k == DayKey(s)
  {
    var r := DayKey(s);
    if |k| < |r| {
      assert false;
    } else if |r| < |k| {
      assert false;
    }
    assert k == s[..|k|] == r;
  }
}

=== FILE: task_dialog.dfy ===
/**
 The create/edit task dialog: how its form is initialised and reset, how a
 keystroke edits one field, the validation rules, and what a submission
 dispatches. Calendar days are whole-day numbers supplied by the caller.
 */
module TaskDialog {
  import opened TaskModel
  import opened Strings
  import TaskSlice

  datatype Mode = CreateMode | EditMode

  /** The `name` attributes of the dialog's five inputs. */
  datatype Field = Title | Description | DueDate | Priority | Status

  /** The form's fields and its error messages; an error shows only when its message is non-empty. */
  datatype DialogState = DialogState(form: TaskFields, errors: map<Field, string>)

  const TitleRequired: string := "Title is required"
  const DueDateInPast: string := "Due date cannot be in the past"

  function GetField(form: TaskFields, field: Field): string
  {
    match field
    case Title => form.title
    case Description => form.description
    case DueDate => form.dueDate
    case Priority => form.priority
    case Status => form.status
  }

  function SetField(form: TaskFields, field: Field, value: string): (r: TaskFields)
    ensures GetField(r, field) == value
    ensures forall other :: other != field ==> GetField(r, other) == GetField(form, other)
  {
    match field
    case Title => form.(title := value)
    case Description => form.(description := value)
    case DueDate => form.(dueDate := value)
    case Priority => form.(priority := value)
    case Status => form.(status := value)
  }

  /** The empty form of create mode: medium priority, incomplete. */
  function BlankForm(): (r: TaskFields)
    ensures forall field :: field in {Title, Description, DueDate} ==> GetField(r, field) == ""
    ensures r.priority == Medium && r.status == Incomplete
  {
    TaskFields("", "", "", Medium, Incomplete)
  }

  /** The edit form of `t`: a missing description becomes '', the due date keeps only its day. */
  function FormFromTask(t: Task): (r: TaskFields)
    ensures r.title == t.title && r.priority == t.priority && r.status == t.status
    ensures r.description == match t.description case Some(d) => d case None => ""
    ensures t.dueDate.None? ==> r.dueDate == ""
    ensures t.dueDate.Some? ==> IsPrefix(r.dueDate, t.dueDate.value) && 'T' !in r.dueDate
    ensures t.dueDate.Some? ==>
      |r.dueDate| == |t.dueDate.value| || t.dueDate.value[|r.dueDate|] == 'T'
    ensures t.dueDate.Some? && 'T' !in t.dueDate.value ==> r.dueDate == t.dueDate.value
  {
    assert t.dueDate.Some? && 'T' !in t.dueDate.value ==> DayKey(t.dueDate.value) == t.dueDate.value by {
      if t.dueDate.Some? && 'T' !in t.dueDate.value {
        DayKeyOfPlainDay(t.dueDate.value);
      }
    }
    TaskFields(
      t.title,
      if Truthy(t.description) then t.description.value else "",
      if Truthy(t.dueDate) then DayKey(t.dueDate.value) else "",
      t.priority,
      t.status)
  }

  /** The `useState` initialiser: the task's form in edit mode with a task, the blank form otherwise. */
  function InitialForm(mode: Mode, task: Option<Task>): (r: TaskFields)
    ensures mode.EditMode? && task.Some? ==> r == FormFromTask(task.value)
    ensures mode.CreateMode? || task.None? ==> r == TaskFields("", "", "", Medium, Incomplete)
  {
    if mode.EditMode? && task.Some? then FormFromTask(task.value) else BlankForm()
  }

  /**
   The effect that runs when the mode, the task or `open` changes: reload
   from the task in edit mode, blank in create mode, otherwise keep the form;
   the errors are cleared in every case.
   */
  function OnOpen(mode: Mode, task: Option<Task>, st: DialogState): (r: DialogState)
    ensures r.errors == map[]
    ensures mode.EditMode? && task.Some? ==> r.form == FormFromTask(task.value)
    ensures mode.CreateMode? ==> r.form == BlankForm()
    ensures mode.EditMode? && task.None? ==> r.form == st.form
  {
    if mode.EditMode? && task.Some? then DialogState(FormFromTask(task.value), map[])
    else if mode.CreateMode? then DialogState(BlankForm(), map[])
    else DialogState(st.form, map[])
  }

  predicate ShowsError(errors: map<Field, string>, field: Field)
  {
    field in errors && errors[field] != ""
  }

  /** `handleInputChange`: sets the named field and blanks that field's shown error, touching nothing else. */
  function InputChange(st: DialogState, field: Field, value: string): (r: DialogState)
    ensures forall k :: GetField(r.form, k) == if k == field then value else GetField(st.form, k)
    ensures !ShowsError(r.errors, field)
    ensures forall k :: k != field ==> (k in r.errors <==> k in st.errors)
    ensures forall k :: k != field && k in st.errors ==> r.errors[k] == st.errors[k]
  {
    var errors := if ShowsError(st.errors, field) then st.errors[field := ""] else st.errors;
    DialogState(SetField(st.form, field, value), errors)
  }

  /** `validateForm`'s error map for a form whose due date is day `dueDay`, checked on day `today`. */
  function Validate(form: TaskFields, dueDay: int, today: int): (r: map<Field, string>)
    ensures r.Keys <= {Title, DueDate}
    ensures Title in r <==> forall i :: 0 <= i < |form.title| ==> IsWhitespace(form.title[i])
    ensures DueDate in r <==> form.dueDate != "" && dueDay < today
    ensures Title in r ==> r[Title] == TitleRequired
    ensures DueDate in r ==> r[DueDate] == DueDateInPast
  {
    var titleErrors: map<Field, string> := if Trim(form.title) == "" then map[Title := TitleRequired] else map[];
    if form.dueDate != "" && dueDay < today then titleErrors[DueDate := DueDateInPast] else titleErrors
  }

  /** `validateForm`'s answer: no error was recorded. */
  function IsValid(form: TaskFields, dueDay: int, today: int): (b: bool)
    ensures b <==> (exists i :: 0 <= i < |form.title| && !IsWhitespace(form.title[i]))
                   && (form.dueDate == "" || today <= dueDay)
  {
    var errors := Validate(form, dueDay, today);
    assert Title in errors ==> errors != map[];
    assert DueDate in errors ==> errors != map[];
    errors == map[]
  }

  /** What `handleSubmit` does: stop on errors, else dispatch a create or an update of the dialog's task. */
  datatype Submission =
    | Blocked(errors: map<Field, string>)
    | DispatchCreate(fields: TaskFields)
    | DispatchUpdate(args: TaskSlice.UpdateArgs)
    | MissingTask

  function Submit(mode: Mode, task: Option<Task>, form: TaskFields, dueDay: int, today: int): (r: Submission)
    ensures r.Blocked? <==> !IsValid(form, dueDay, today)
    ensures r.Blocked? ==> r.errors == Validate(form, dueDay, today)
    ensures r.DispatchCreate? <==> IsValid(form, dueDay, today) && mode.CreateMode?
    ensures r.DispatchCreate? ==>
      TaskSlice.CreateBodyOf(r.fields) == TaskSlice.CreateBody(form.title, form.description, form.dueDate, form.priority)
    ensures r.DispatchUpdate? <==> IsValid(form, dueDay, today) && mode.EditMode? && task.Some?
    ensures r.DispatchUpdate? ==>
      TaskSlice.EchoOf(r.args)
        == Task(task.value.id, form.title, Some(form.description), Some(form.dueDate), form.priority, form.status)
  {
    if !IsValid(form, dueDay, today) then Blocked(Validate(form, dueDay, today))
    else if mode.CreateMode? then DispatchCreate(form)
    else if task.None? then MissingTask
    else
      DispatchUpdate(TaskSlice.UpdateArgs(
        task.value.id, form.title, Some(form.description), Some(form.dueDate), form.priority, form.status))
  }

  /** `handleClose`: back to the blank form with no errors. */
  function Close(st: DialogState): (r: DialogState)
    ensures r.errors == map[]
    ensures r.form == InitialForm(CreateMode, None)
  {
    DialogState(BlankForm(), map[])
  }

  /** Closing, opening in create mode and the create-mode initialiser all give the same form. */
  lemma ResetsAgree(st: DialogState, task: Option<Task>)
    ensures Close(st).form == OnOpen(CreateMode, task, st).form == InitialForm(CreateMode, task)
    ensures Close(st).form == TaskFields("", "", "", Medium, Incomplete)
  {
  }

  /** Today's date, and any later date, never triggers the due-date error. */
  lemma TodayIsNotPast(form: TaskFields, dueDay: int, today: int)
    requires today <= dueDay
    ensures DueDate !in Validate(form, dueDay, today)
  {
  }

  /** Instants are whole minutes since the epoch, in UTC. */
  const MinutesPerDay: int := 1440

  /**
   The past-date test as the dialog writes it. `new Date(dueDate)` on a
   `YYYY-MM-DD` string is midnight UTC of `dueDay`; `today.setHours(0,0,0,0)`
   is local midnight of the local day `today`, in a zone `offset` minutes
   ahead of UTC. `Validate` compares the two days instead.
   */
  predicate DueDateInPastAsWritten(dueDay: int, today: int, offset: int)
  {
    dueDay * MinutesPerDay < today * MinutesPerDay - offset
  }

  /** From UTC eastwards, the written test is the day comparison `Validate` makes. */
  lemma AsWrittenAgreesEastOfUtc(dueDay: int, today: int, offset: int)
    requires 0 <= offset < MinutesPerDay
    ensures DueDateInPastAsWritten(dueDay, today, offset) <==> dueDay < today
  {
  }

  /** West of UTC, the written test also rejects today's own date. */
  lemma AsWrittenRejectsTodayWestOfUtc(dueDay: int, today: int, offset: int)
    requires -MinutesPerDay < offset < 0
    ensures DueDateInPastAsWritten(dueDay, today, offset) <==> dueDay <= today
    ensures DueDateInPastAsWritten(today, today, offset)
  {
  }

  /** The discrepancy: in UTC-5, a form dated today fails the written test but passes `Validate`. */
  lemma TodayRejectedInUtcMinusFive(form: TaskFields, today: int)
    requires form.dueDate != ""
    ensures DueDateInPastAsWritten(today, today, -300)
    ensures DueDate !in Validate(form, today, today)
  {
    AsWrittenRejectsTodayWestOfUtc(today, today, -300);
    TodayIsNotPast(form, today, today);
  }
}

=== FILE: task_filters.dfy ===
/**
 The filter specification the task page holds and the filter panel edits:
 four strings, where the empty string means "no constraint".
 */
module TaskFilters {

  datatype Filters = Filters(priority: string, dueDate: string, status: string, search: string)

  /** The input names of the filter panel: three selects (`priority`, `dueDate`, `status`) and the search box. */
  datatype FilterField = PriorityField | DueDateField | StatusField | SearchField

  function Get(f: Filters, field: FilterField): string
  {
    match field
    case PriorityField => f.priority
    case DueDateField => f.dueDate
    case StatusField => f.status
    case SearchField => f.search
  }

  /** `{...filters, [name]: value}`: only the named field takes the new value. */
  function Set(f: Filters, field: FilterField, value: string): (r: Filters)
    ensures Get(r, field) == value
    ensures forall other :: other != field ==> Get(r, other) == Get(f, other)
  {
    match field
    case PriorityField => f.(priority := value)
    case DueDateField => f.(dueDate := value)
    case StatusField => f.(status := value)
    case SearchField => f.(search := value)
  }

  /** The page's initial filter state: every field empty. */
  function NoFilters(): (r: Filters)
    ensures forall field :: Get(r, field) == ""
  {
    Filters("", "", "", "")
  }

  /** `handleFilterChange`: the select named `field` took `value`. */
  function HandleFilterChange(f: Filters, field: FilterField, value: string): (r: Filters)
    ensures Get(r, field) == value
    ensures forall other :: other != field ==> Get(r, other) == Get(f, other)
  {
    Set(f, field, value)
  }

  /** `handleSearchChange`: only the search text changes. */
  function HandleSearchChange(f: Filters, value: string): (r: Filters)
    ensures r.search == value
    ensures r.priority == f.priority && r.dueDate == f.dueDate && r.status == f.status
  {
    Set(f, SearchField, value)
  }

  /** `clearFilters`: every field back to empty, whatever was set. */
  function ClearFilters(f: Filters): (r: Filters)
    ensures forall field :: Get(r, field) == ""
  {
    NoFilters()
  }

  /** The remove button of the chip for `field`: clears that field alone. */
  function RemoveChip(f: Filters, field: FilterField): (r: Filters)
    ensures Get(r, field) == ""
    ensures forall other :: other != field ==> Get(r, other) == Get(f, other)
  {
    Set(f, field, "")
  }

  /** `hasActiveFilters`, the truthiness of `priority || dueDate || status || search`. */
  function HasActiveFilters(f: Filters): (b: bool)
    ensures b <==> exists field :: Get(f, field) != ""
  {
    assert f.priority != "" ==> Get(f, PriorityField) != "";
    assert f.dueDate != "" ==> Get(f, DueDateField) != "";
    assert f.status != "" ==> Get(f, StatusField) != "";
    assert f.search != "" ==> Get(f, SearchField) != "";
    f.priority != "" || f.dueDate != "" || f.status != "" || f.search != ""
  }

  /** Right after clearing, the panel shows no active filters and no chips. */
  lemma ClearedHasNoActiveFilters(f: Filters)
    ensures !HasActiveFilters(ClearFilters(f))
  {
  }

  /** Removing the only active chip deactivates the panel; removing a chip when another is active does not. */
  lemma RemoveChipActivity(f: Filters, field: FilterField)
    ensures HasActiveFilters(RemoveChip(f, field)) <==> exists other :: other != field && Get(f, other) != ""
  {
    var r := RemoveChip(f, field);
    if HasActiveFilters(r) {
      var other :| Get(r, other) != "";
      assert other != field;
    } else {
      forall other | other != field ensures Get(f, other) == "" {
        assert Get(r, other) == Get(f, other);
      }
    }
  }
}

=== FILE: task_model.dfy ===
/**
 The task record as the server returns it and the five editable task
 fields the dialog works on.
 */
module TaskModel {

  /** A JSON field that may be absent (`undefined` or `null`). */
  datatype Option<+T> = None | Some(value: T)

  /** Outcome of one call to the remote API: its decoded payload, or the error message it threw. */
  datatype ApiResult<+T> = Ok(payload: T) | Err(message: string)

  const Complete: string := "complete"
  const Incomplete: string := "incomplete"
  const High: string := "high"
  const Medium: string := "medium"

  /**
   A task: `id` is the server's opaque `_id`; `dueDate` is an ISO date or
   date-time string whose part before 'T' names the day.
   */
  datatype Task = Task(
    id: string,
    title: string,
    description: Option<string>,
    dueDate: Option<string>,
    priority: string,
    status: string)

  /** JavaScript truthiness of an optional string field: present and non-empty. */
  predicate Truthy(o: Option<string>)
  {
    o.Some? && o.value != ""
  }

  /** The five fields of the create/edit form, each held as a string. */
  datatype TaskFields = TaskFields(
    title: string,
    description: string,
    dueDate: string,
    priority: string,
    status: string)
}

=== FILE: task_slice.dfy ===
/**
 The task collection store: the tasks slice's state, the actions its four
 asynchronous operations and `setTasks` dispatch, and the reducer that
 applies them. A network call is reduced to its outcome, an `ApiResult`.
 */
module TaskSlice {
  import opened TaskModel
  import opened Seqs
  import Store

  /** `{tasks, loading, error}`; `error == None` is the slice's `null`. */
  datatype TaskState = TaskState(tasks: seq<Task>, loading: bool, error: Option<string>)

  function InitialState(): TaskState
  {
    TaskState([], false, None)
  }

  datatype Operation = CreateOp | DeleteOp | UpdateOp | FetchOp

  datatype TaskAction =
    | Pending(op: Operation)
    | Rejected(op: Operation, message: string)
    | CreateFulfilled(created: Task)
    | DeleteFulfilled(deletedId: string)
    | UpdateFulfilled(updated: Task)
    | FetchFulfilled(fetched: seq<Task>)
    | SetTasks(replacement: seq<Task>)
  {
    predicate IsFulfilled()
    {
      CreateFulfilled? || DeleteFulfilled? || UpdateFulfilled? || FetchFulfilled?
    }
  }

  /** The JSON body `createTaskAsync` sends: it has no `status` field. */
  datatype CreateBody = CreateBody(title: string, description: string, dueDate: string, priority: string)

  /** The argument of `updateTaskAsync`; every field but `id` goes into the request body. */
  datatype UpdateArgs = UpdateArgs(
    id: string,
    title: string,
    description: Option<string>,
    dueDate: Option<string>,
    priority: string,
    status: string)

  /** `createTaskAsync` destructures four of the form's fields and forwards only those. */
  function CreateBodyOf(args: TaskFields): CreateBody
  {
    CreateBody(args.title, args.description, args.dueDate, args.priority)
  }

  /** A `status` given to `createTaskAsync` never reaches the server. */
  lemma CreateBodyIgnoresStatus(args: TaskFields, status: string)
    ensures CreateBodyOf(args.(status := status)) == CreateBodyOf(args)
  {
  }

  /** The task a server that stores an update verbatim echoes back. */
  function EchoOf(args: UpdateArgs): Task
  {
    Task(args.id, args.title, args.description, args.dueDate, args.priority, args.status)
  }

  /** `i` is the first index of a task whose `_id` is `id`. */
  predicate IsFirstWithId(tasks: seq<Task>, i: int, id: string)
  {
    0 <= i < |tasks| && tasks[i].id == id && forall j :: 0 <= j < i ==> tasks[j].id != id
  }

  predicate HasId(tasks: seq<Task>, id: string)
  {
    exists i :: 0 <= i < |tasks| && tasks[i].id == id
  }

  /** `tasks.findIndex(task => task._id === id)`: the first matching index, or -1. */
  function FindIndex(tasks: seq<Task>, id: string): (i: int)
    ensures i == -1 <==> !HasId(tasks, id)
    ensures i != -1 ==> IsFirstWithId(tasks, i, id)
    decreases |tasks|
  {
    if |tasks| == 0 then -1
    else if tasks[0].id == id then 0
    else
      var k := FindIndex(tasks[1..], id);
      assert forall j :: 1 <= j < |tasks| ==> tasks[j] == tasks[1..][j - 1];
      if k == -1 then -1 else k + 1
  }

  function KeepOthers(id: string): Task -> bool
  {
    (t: Task) => t.id != id
  }

  /** The delete-fulfilled filter: drops every task with the given `_id` and keeps the rest in order. */
  function RemoveById(tasks: seq<Task>, id: string): (r: seq<Task>)
    ensures IsSubsequence(r, tasks)
    ensures forall i :: 0 <= i < |r| ==> r[i].id != id
    ensures forall t :: multiset(r)[t] == if t.id == id then 0 else multiset(tasks)[t]
  {
    var r := Filter(tasks, KeepOthers(id));
    FilterIsSubsequence(tasks, KeepOthers(id));
    assert forall t :: multiset(r)[t] == if t.id == id then 0 else multiset(tasks)[t] by {
      forall t
        ensures multiset(r)[t] == if t.id == id then 0 else multiset(tasks)[t]
      {
        FilterMultiplicity(tasks, KeepOthers(id), t);
      }
    }
    r
  }

  /** The update-fulfilled step: the first task with the payload's `_id` becomes the payload. */
  function ReplaceById(tasks: seq<Task>, t: Task): (r: seq<Task>)
    ensures |r| == |tasks|
    ensures forall k :: 0 <= k < |r| ==> r[k] == if IsFirstWithId(tasks, k, t.id) then t else tasks[k]
    ensures !HasId(tasks, t.id) ==> r == tasks
  {
    var index := FindIndex(tasks, t.id);
    if index != -1 then tasks[index := t] else tasks
  }

  /** One reducer step of the tasks slice. */
  function Reduce(s: TaskState, a: TaskAction): (r: TaskState)
    ensures a.Pending? ==> r.loading && r.error == None && r.tasks == s.tasks
    ensures a.Rejected? ==> !r.loading && r.error == Some(a.message) && r.tasks == s.tasks
    ensures a.IsFulfilled() ==> !r.loading && r.error == s.error
    ensures a.CreateFulfilled? ==>
      |r.tasks| == |s.tasks| + 1 && r.tasks[..|s.tasks|] == s.tasks && r.tasks[|s.tasks|] == a.created
    ensures a.DeleteFulfilled? ==> r.tasks == RemoveById(s.tasks, a.deletedId)
    ensures a.UpdateFulfilled? ==> r.tasks == ReplaceById(s.tasks, a.updated)
    ensures a.FetchFulfilled? ==> r.tasks == a.fetched
    ensures a.SetTasks? ==> r.tasks == a.replacement && r.loading == s.loading && r.error == s.error
  {
    match a
    case Pending(_) => s.(loading := true, error := None)
    case Rejected(_, message) => s.(loading := false, error := Some(message))
    case CreateFulfilled(t) => s.(loading := false, tasks := s.tasks + [t])
    case DeleteFulfilled(id) => s.(loading := false, tasks := RemoveById(s.tasks, id))
    case UpdateFulfilled(t) => s.(loading := false, tasks := ReplaceById(s.tasks, t))
    case FetchFulfilled(ts) => s.(loading := false, tasks := ts)
    case SetTasks(ts) => s.(tasks := ts)
  }

  /** The state after dispatching `actions` in order. */
  function Run(s: TaskState, actions: seq<TaskAction>): TaskState
  {
    Store.RunAll(Reduce, s, actions)
  }

  lemma RunConcat(s: TaskState, a: seq<TaskAction>, b: seq<TaskAction>)
    ensures Run(s, a + b) == Run(Run(s, a), b)
  {
    Store.RunAllConcat(Reduce, s, a, b);
  }

  lemma RunPair(s: TaskState, a: TaskAction, b: TaskAction)
    ensures Run(s, [a, b]) == Reduce(Reduce(s, a), b)
  {
    Store.RunAllPair(Reduce, s, a, b);
  }

  /** The actions a thunk dispatches: `pending`, then `fulfilled` or `rejected` as the call settles. */
  function Lifecycle(op: Operation, settled: ApiResult<TaskAction>): (r: seq<TaskAction>)
    ensures |r| == 2 && r[0] == Pending(op)
    ensures settled.Ok? ==> r[1] == settled.payload
    ensures settled.Err? ==> r[1] == Rejected(op, settled.message)
  {
    match settled
    case Ok(fulfilled) => [Pending(op), fulfilled]
    case Err(message) => [Pending(op), Rejected(op, message)]
  }

  /** `createTaskAsync`: fulfils with the task the server returns. */
  function CreateTaskAsync(response: ApiResult<Task>): (r: seq<TaskAction>)
    ensures |r| == 2 && r[0] == Pending(CreateOp)
    ensures response.Ok? ==> r[1] == CreateFulfilled(response.payload)
    ensures response.Err? ==> r[1] == Rejected(CreateOp, response.message)
  {
    Lifecycle(CreateOp, match response case Ok(t) => Ok(CreateFulfilled(t)) case Err(m) => Err(m))
  }

  /** `deleteTaskAsync`: fulfils with the id it was given, whatever the server's body says. */
  function DeleteTaskAsync<B>(id: string, response: ApiResult<B>): (r: seq<TaskAction>)
    ensures |r| == 2 && r[0] == Pending(DeleteOp)
    ensures response.Ok? ==> r[1] == DeleteFulfilled(id)
    ensures response.Err? ==> r[1] == Rejected(DeleteOp, response.message)
  {
    Lifecycle(DeleteOp, match response case Ok(_) => Ok(DeleteFulfilled(id)) case Err(m) => Err(m))
  }

  /** `updateTaskAsync`: fulfils with the task the server returns. */
  function UpdateTaskAsync(response: ApiResult<Task>): (r: seq<TaskAction>)
    ensures |r| == 2 && r[0] == Pending(UpdateOp)
    ensures response.Ok? ==> r[1] == UpdateFulfilled(response.payload)
    ensures response.Err? ==> r[1] == Rejected(UpdateOp, response.message)
  {
    Lifecycle(UpdateOp, match response case Ok(t) => Ok(UpdateFulfilled(t)) case Err(m) => Err(m))
  }

  /** `fetchTasksAsync`: fulfils with the server's task list. */
  function FetchTasksAsync(response: ApiResult<seq<Task>>): (r: seq<TaskAction>)
    ensures |r| == 2 && r[0] == Pending(FetchOp)
    ensures response.Ok? ==> r[1] == FetchFulfilled(response.payload)
    ensures response.Err? ==> r[1] == Rejected(FetchOp, response.message)
  {
    Lifecycle(FetchOp, match response case Ok(ts) => Ok(FetchFulfilled(ts)) case Err(m) => Err(m))
  }

  /** A failed call leaves the task list exactly as it was and records the message; a successful one clears the error. */
  lemma {:induction false} SettledCall(s: TaskState, op: Operation, settled: ApiResult<TaskAction>)
    requires settled.Ok? ==> settled.payload.IsFulfilled()
    ensures !Run(s, Lifecycle(op, settled)).loading
    ensures settled.Err? ==> Run(s, Lifecycle(op, settled)) == s.(loading := false, error := Some(settled.message))
    ensures settled.Ok? ==> Run(s, Lifecycle(op, settled)).error == None
  {
    var acts := Lifecycle(op, settled);
    RunPair(s, acts[0], acts[1]);
  }

  /** A successful create appends the server's task at the end of the list. */
  lemma CreateAppends(s: TaskState, t: Task)
    ensures Run(s, CreateTaskAsync(Ok(t))).tasks == s.tasks + [t]
    ensures Run(s, CreateTaskAsync(Ok(t))).error == None
  {
    var acts := CreateTaskAsync(Ok(t));
    assert acts == Lifecycle(CreateOp, Ok(CreateFulfilled(t)));
    SettledCall(s, CreateOp, Ok(CreateFulfilled(t)));
    RunPair(s, Pending(CreateOp), CreateFulfilled(t));
  }

  /** From the empty initial store, a successful create leaves exactly the server's task, not loading and with no error. */
  lemma CreateFromEmptyStore(t: Task)
    ensures Run(InitialState(), CreateTaskAsync(Ok(t))) == TaskState([t], false, None)
  {
    CreateAppends(InitialState(), t);
    SettledCall(InitialState(), CreateOp, Ok(CreateFulfilled(t)));
  }

  /** Deleting an id that is no longer present changes nothing. */
  lemma RemoveAbsentIsNoop(tasks: seq<Task>, id: string)
    requires !HasId(tasks, id)
    ensures RemoveById(tasks, id) == tasks
  {
    FilterKeepAll(tasks, KeepOthers(id));
  }

  /** Deleting the same id twice leaves the store exactly as deleting it once. */
  lemma DeleteIdempotent<B>(s: TaskState, id: string, first: B, second: B)
    ensures Run(s, DeleteTaskAsync(id, Ok(first)) + DeleteTaskAsync(id, Ok(second)))
         == Run(s, DeleteTaskAsync(id, Ok(first)))
  {
    var once := DeleteTaskAsync(id, Ok(first));
    var again := DeleteTaskAsync(id, Ok(second));
    assert once == again;
    RunConcat(s, once, again);
    var s1 := Run(s, once);
    SettledCall(s, DeleteOp, Ok(DeleteFulfilled(id)));
    assert once == Lifecycle(DeleteOp, Ok(DeleteFulfilled(id)));
    RunPair(s, Pending(DeleteOp), DeleteFulfilled(id));
    RunPair(s1, Pending(DeleteOp), DeleteFulfilled(id));
    FilterIdempotent(s.tasks, KeepOthers(id));
  }

  /** Replacing a task in place keeps it where it was: its id is found at the same index afterwards. */
  lemma ReplaceKeepsPosition(tasks: seq<Task>, t: Task)
    ensures FindIndex(ReplaceById(tasks, t), t.id) == FindIndex(tasks, t.id)
  {
    var r := ReplaceById(tasks, t);
    var i := FindIndex(tasks, t.id);
    if i != -1 {
      assert IsFirstWithId(tasks, i, t.id);
      assert forall j :: 0 <= j < i ==> r[j] == tasks[j];
      assert IsFirstWithId(r, i, t.id);
    } else {
      assert r == tasks;
    }
  }
}

=== FILE: task_table.dfy ===
/**
 The task table: page slicing of the filtered tasks, the pager controls,
 when the table is mounted, the due-date proximity label and the "mark
 complete" update. The day offset of a due date from today is an input,
 not computed from clocks.
 */
module TaskTable {
  import opened TaskModel
  import TaskSlice

  function Min(a: int, b: int): int
  {
    if a <= b then a else b
  }

  /** Rows per page, chosen once from the view mode the table mounts with. */
  function RowsPerPage(viewMode: string): (r: nat)
    ensures r > 0
    ensures r == 9 <==> viewMode == "grid"
    ensures r == 10 <==> viewMode != "grid"
  {
    if viewMode == "grid" then 9 else 10
  }

  /** `filteredTasks.slice(page * rpp, page * rpp + rpp)`; JavaScript clamps both ends to the length. */
  function Paginate(tasks: seq<Task>, page: nat, rpp: nat): (r: seq<Task>)
    ensures |r| <= rpp
    ensures |r| == if page * rpp >= |tasks| then 0 else Min(rpp, |tasks| - page * rpp)
    ensures forall k :: 0 <= k < |r| ==> r[k] == tasks[page * rpp + k]
  {
    tasks[Min(page * rpp, |tasks|)..Min(page * rpp + rpp, |tasks|)]
  }

  lemma MulMonotone(a: int, b: int, c: nat)
    requires a <= b
    ensures a * c <= b * c
  {
  }

  /** `Math.ceil(len / rpp)`: the fewest pages of `rpp` rows that hold `len` tasks. */
  function TotalPages(len: nat, rpp: nat): (r: nat)
    requires rpp > 0
    ensures len <= r * rpp
    ensures r == 0 || (r - 1) * rpp < len
  {
    var q := (len + rpp - 1) / rpp;
    assert len + rpp - 1 == q * rpp + (len + rpp - 1) % rpp;
    assert (q - 1) * rpp == q * rpp - rpp;
    q
  }

  /** Pages `0 .. n-1` one after the other. */
  function ConcatPages(tasks: seq<Task>, rpp: nat, n: nat): seq<Task>
  {
    if n == 0 then [] else ConcatPages(tasks, rpp, n - 1) + Paginate(tasks, n - 1, rpp)
  }

  lemma {:induction false} ConcatPagesIsPrefix(tasks: seq<Task>, rpp: nat, n: nat)
    ensures ConcatPages(tasks, rpp, n) == tasks[..Min(n * rpp, |tasks|)]
  {
    if n > 0 {
      ConcatPagesIsPrefix(tasks, rpp, n - 1);
      assert (n - 1) * rpp + rpp == n * rpp;
      MulMonotone(n - 1, n, rpp);
      var a := Min((n - 1) * rpp, |tasks|);
      var b := Min(n * rpp, |tasks|);
      assert Paginate(tasks, n - 1, rpp) == tasks[a..b];
      assert tasks[..a] + tasks[a..b] == tasks[..b];
    }
  }

  /** Reading every page in order gives back the filtered tasks exactly: nothing lost, nothing repeated. */
  lemma PagesCoverExactlyOnce(tasks: seq<Task>, rpp: nat)
    requires rpp > 0
    ensures ConcatPages(tasks, rpp, TotalPages(|tasks|, rpp)) == tasks
  {
    ConcatPagesIsPrefix(tasks, rpp, TotalPages(|tasks|, rpp));
  }

  /** Index `i` of the filtered list falls in the row range of page `page`. */
  predicate OnPage(i: int, page: nat, rpp: nat)
  {
    page * rpp <= i < page * rpp + rpp
  }

  lemma DivModSplit(i: nat, rpp: nat)
    requires rpp > 0
    ensures i == (i / rpp) * rpp + i % rpp && 0 <= i % rpp < rpp
  {
  }

  /** Index `i` lies on page `i / rpp` and on no other. */
  lemma OnlyOnePage(i: nat, rpp: nat, page: nat)
    requires rpp > 0
    ensures OnPage(i, page, rpp) <==> page == i / rpp
  {
    var p := i / rpp;
    DivModSplit(i, rpp);
    if page < p {
      MulMonotone(page + 1, p, rpp);
      assert (page + 1) * rpp == page * rpp + rpp;
    } else if page > p {
      MulMonotone(p + 1, page, rpp);
      assert (p + 1) * rpp == p * rpp + rpp;
    }
  }

  /** Every task sits on exactly one page, `i / rpp`, at row `i % rpp`, and that page exists. */
  lemma PageOfIndex(tasks: seq<Task>, rpp: nat, i: nat)
    requires rpp > 0 && i < |tasks|
    ensures i / rpp < TotalPages(|tasks|, rpp)
    ensures i % rpp < |Paginate(tasks, i / rpp, rpp)|
    ensures Paginate(tasks, i / rpp, rpp)[i % rpp] == tasks[i]
    ensures forall page: nat :: OnPage(i, page, rpp) <==> page == i / rpp
  {
    var p := i / rpp;
    DivModSplit(i, rpp);
    var total := TotalPages(|tasks|, rpp);
    if p >= total {
      MulMonotone(total, p, rpp);
    }
    forall page: nat
      ensures OnPage(i, page, rpp) <==> page == p
    {
      OnlyOnePage(i, rpp, page);
    }
  }

  /** A page index at or past the last page shows nothing; the page is not reset when the list shrinks. */
  lemma StalePageIsEmpty(tasks: seq<Task>, page: nat, rpp: nat)
    requires rpp > 0 && page >= TotalPages(|tasks|, rpp)
    ensures Paginate(tasks, page, rpp) == []
    ensures PagerView(|tasks|, page, rpp).Shown? ==>
      PagerView(|tasks|, page, rpp).first > PagerView(|tasks|, page, rpp).last
  {
    MulMonotone(TotalPages(|tasks|, rpp), page, rpp);
  }

  /** What the pager renders: nothing, or the previous/next buttons, the "Showing a to b of n" range and one button per page. */
  datatype Pager =
    | Hidden
    | Shown(prevDisabled: bool, nextDisabled: bool, first: int, last: int, of: nat, pageButtons: nat)

  function PagerView(len: nat, page: nat, rpp: nat): (r: Pager)
    requires rpp > 0
    ensures r.Hidden? <==> len <= rpp
    ensures r.Shown? ==> (r.prevDisabled <==> page == 0)
    ensures r.Shown? ==> (r.nextDisabled <==> len <= (page + 1) * rpp)
    ensures r.Shown? ==> r.of == len && r.pageButtons == TotalPages(len, rpp)
    ensures r.Shown? && page < TotalPages(len, rpp) ==> 1 <= r.first <= r.last <= len
  {
    var total := TotalPages(len, rpp);
    if total <= 1 then
      assert len <= rpp by {
        MulMonotone(total, 1, rpp);
      }
      Hidden
    else
      assert len > rpp by {
        MulMonotone(1, total - 1, rpp);
      }
      assert page >= total - 1 <==> len <= (page + 1) * rpp by {
        if page >= total - 1 {
          MulMonotone(total, page + 1, rpp);
        } else {
          MulMonotone(page + 1, total - 1, rpp);
        }
      }
      assert page < total ==> page * rpp < len by {
        if page < total {
          MulMonotone(page, total - 1, rpp);
        }
      }
      assert (page + 1) * rpp == page * rpp + rpp;
      Shown(page == 0, page >= total - 1, page * rpp + 1, Min((page + 1) * rpp, len), len, total)
  }

  /**
   On an existing page the "Showing a to b" range counts exactly the rows on
   screen, and names their 1-based positions in the filtered list.
   */
  lemma PagerRangeMatchesSlice(tasks: seq<Task>, page: nat, rpp: nat)
    requires rpp > 0 && page < TotalPages(|tasks|, rpp)
    ensures PagerView(|tasks|, page, rpp).Shown? ==>
      PagerView(|tasks|, page, rpp).last - PagerView(|tasks|, page, rpp).first + 1
        == |Paginate(tasks, page, rpp)|
    ensures PagerView(|tasks|, page, rpp).Shown? ==>
      forall k :: 0 <= k < |Paginate(tasks, page, rpp)| ==>
        Paginate(tasks, page, rpp)[k] == tasks[PagerView(|tasks|, page, rpp).first - 1 + k]
    ensures PagerView(|tasks|, page, rpp).Shown? ==>
      forall i :: PagerView(|tasks|, page, rpp).first - 1 <= i < PagerView(|tasks|, page, rpp).last
        <==> 0 <= i < |tasks| && OnPage(i, page, rpp)
  {
    MulMonotone(page, TotalPages(|tasks|, rpp) - 1, rpp);
    assert (page + 1) * rpp == page * rpp + rpp;
  }

  /** The table's own state: the page index, and the rows per page fixed at mount. */
  datatype TableState = TableState(page: nat, rowsPerPage: nat)

  /** Both `useState` initialisers of a freshly mounted table. */
  function Mount(viewMode: string): (r: TableState)
    ensures r.page == 0
    ensures r.rowsPerPage == (if viewMode == "grid" then 9 else 10)
  {
    TableState(0, RowsPerPage(viewMode))
  }

  /**
   The task page around the table: the tasks store, the page's view mode,
   and the table's state while it is mounted. The page shows a spinner in
   place of the table whenever the store is loading, so the table is
   unmounted then, and mounted afresh when loading ends.
   */
  datatype PageState = PageState(store: TaskSlice.TaskState, viewMode: string, table: Option<TableState>)

  /** A page button, the grid/list toggle, a filter edit, or an action reaching the tasks store. */
  datatype PageEvent =
    | GoToPage(target: nat)
    | ViewModeChanged(mode: string)
    | FiltersChanged
    | Dispatched(action: TaskSlice.TaskAction)

  /** The page as first rendered over `store`. */
  function OpenPage(store: TaskSlice.TaskState, viewMode: string): (r: PageState)
    ensures r.table.Some? <==> !store.loading
    ensures r.table.Some? ==> r.table.value == Mount(viewMode)
  {
    PageState(store, viewMode, if store.loading then None else Some(Mount(viewMode)))
  }

  function Step(st: PageState, e: PageEvent): (r: PageState)
    ensures r.store == if e.Dispatched? then TaskSlice.Reduce(st.store, e.action) else st.store
    ensures r.viewMode == if e.ViewModeChanged? then e.mode else st.viewMode
    ensures r.table.Some? <==> !r.store.loading
    ensures st.table.None? && !r.store.loading ==> r.table == Some(Mount(r.viewMode))
    ensures st.table.Some? && !r.store.loading && e.GoToPage? ==> r.table == Some(st.table.value.(page := e.target))
    ensures st.table.Some? && !r.store.loading && !e.GoToPage? ==> r.table == st.table
  {
    var store := if e.Dispatched? then TaskSlice.Reduce(st.store, e.action) else st.store;
    var viewMode := if e.ViewModeChanged? then e.mode else st.viewMode;
    var table :=
      if store.loading then None
      else if st.table.None? then Some(Mount(viewMode))
      else if e.GoToPage? then Some(st.table.value.(page := e.target))
      else st.table;
    PageState(store, viewMode, table)
  }

  function Replay(st: PageState, events: seq<PageEvent>): PageState
    decreases |events|
  {
    if |events| == 0 then st else Replay(Step(st, events[0]), events[1..])
  }

  /** The event does not start a thunk, so the store never begins loading because of it. */
  predicate StartsNoThunk(e: PageEvent)
  {
    !(e.Dispatched? && e.action.Pending?)
  }

  /**
   While no thunk starts, the table stays mounted and keeps its rows per
   page, whatever the view mode, the filters or the page do.
   */
  lemma {:induction false} RowsPerPageFixedWhileMounted(st: PageState, events: seq<PageEvent>)
    requires st.table.Some? && !st.store.loading
    requires forall i :: 0 <= i < |events| ==> StartsNoThunk(events[i])
    ensures Replay(st, events).table.Some?
    ensures Replay(st, events).table.value.rowsPerPage == st.table.value.rowsPerPage
    decreases |events|
  {
    if |events| > 0 {
      var next := Step(st, events[0]);
      assert !next.store.loading;
      RowsPerPageFixedWhileMounted(next, events[1..]);
    }
  }

  /**
   Every thunk unmounts the table for its pending phase; when it settles the
   table mounts again, on the first page and sized by the current view mode.
   */
  lemma ThunkRemountsTable(st: PageState, op: TaskSlice.Operation, settled: ApiResult<TaskSlice.TaskAction>)
    requires settled.Ok? ==> settled.payload.IsFulfilled()
    ensures var r := Replay(st, Dispatches(TaskSlice.Lifecycle(op, settled)));
      && r.store == TaskSlice.Run(st.store, TaskSlice.Lifecycle(op, settled))
      && r.table == Some(Mount(st.viewMode))
  {
    var acts := TaskSlice.Lifecycle(op, settled);
    var mid := Step(st, Dispatched(acts[0]));
    assert mid.table.None?;
    var events := Dispatches(acts);
    assert events[1..][1..] == [];
    assert Replay(st, events) == Replay(mid, events[1..]);
    assert Replay(mid, events[1..]) == Replay(Step(mid, Dispatched(acts[1])), []);
    TaskSlice.SettledCall(st.store, op, settled);
    TaskSlice.RunPair(st.store, acts[0], acts[1]);
  }

  /** The store actions of a thunk, as page events. */
  function Dispatches(actions: seq<TaskSlice.TaskAction>): (r: seq<PageEvent>)
    ensures |r| == |actions|
    ensures forall i :: 0 <= i < |r| ==> r[i] == Dispatched(actions[i])
  {
    seq(|actions|, i requires 0 <= i < |actions| => Dispatched(actions[i]))
  }

  /**
   On a grid page turned to page 2, switching to list view keeps 9 rows per
   page; a delete then brings the table back on page 0 with 10 rows.
   */
  lemma DeleteResetsPagingToCurrentMode(store: TaskSlice.TaskState, id: string, response: ApiResult<bool>)
    requires !store.loading
    ensures var st := Replay(OpenPage(store, "grid"), [GoToPage(2), ViewModeChanged("list")]);
      && st.table == Some(TableState(2, 9))
      && Replay(st, Dispatches(TaskSlice.DeleteTaskAsync(id, response))).table == Some(TableState(0, 10))
  {
    var st := Replay(OpenPage(store, "grid"), [GoToPage(2), ViewModeChanged("list")]);
    var events := [GoToPage(2), ViewModeChanged("list")];
    assert events[1..] == [ViewModeChanged("list")];
    assert events[1..][1..] == [];
    assert st.viewMode == "list";
    match response {
      case Ok(_) => ThunkRemountsTable(st, TaskSlice.DeleteOp, Ok(TaskSlice.DeleteFulfilled(id)));
      case Err(m) => ThunkRemountsTable(st, TaskSlice.DeleteOp, Err(m));
    }
  }

  /** The proximity label of a due date, by its whole-day offset from today. */
  datatype DueLabel = NoDate | Today | Tomorrow | Overdue(daysLate: nat) | DaysLeft(daysToGo: nat) | CalendarDate

  /** `formatDueDate`: `'-'` for a missing or empty date, otherwise the label of the day offset. */
  function ClassifyDueDate(dueDate: Option<string>, dayOffset: int): (r: DueLabel)
    ensures r.NoDate? <==> !Truthy(dueDate)
    ensures Truthy(dueDate) ==>
      && (r.Today? <==> dayOffset == 0)
      && (r.Tomorrow? <==> dayOffset == 1)
      && (r.Overdue? <==> dayOffset < 0)
      && (r.DaysLeft? <==> 2 <= dayOffset <= 7)
      && (r.CalendarDate? <==> dayOffset > 7)
    ensures r.Overdue? ==> r.daysLate > 0 && r.daysLate == -dayOffset
    ensures r.DaysLeft? ==> r.daysToGo == dayOffset
  {
    if !Truthy(dueDate) then NoDate
    else if dayOffset == 0 then Today
    else if dayOffset == 1 then Tomorrow
    else if dayOffset < 0 then Overdue(-dayOffset)
    else if dayOffset <= 7 then DaysLeft(dayOffset)
    else CalendarDate
  }

  /** `handleMarkComplete`: the update argument for `task`, everything copied but the status. */
  function MarkCompleteArgs(task: Task): (a: TaskSlice.UpdateArgs)
    ensures a.id == task.id
    ensures TaskSlice.EchoOf(a) == task.(status := Complete)
  {
    TaskSlice.UpdateArgs(task.id, task.title, task.description, task.dueDate, task.priority, Complete)
  }

  /**
   If the server stores the update as sent, marking a task complete changes
   only its status, in place, and nothing else in the store.
   */
  lemma MarkCompleteInPlace(s: TaskSlice.TaskState, task: Task, i: nat)
    requires TaskSlice.IsFirstWithId(s.tasks, i, task.id)
    ensures var r := TaskSlice.Run(s, TaskSlice.UpdateTaskAsync(Ok(TaskSlice.EchoOf(MarkCompleteArgs(task)))));
      && |r.tasks| == |s.tasks|
      && r.tasks[i] == task.(status := Complete)
      && (forall j :: 0 <= j < |s.tasks| && j != i ==> r.tasks[j] == s.tasks[j])
      && !r.loading && r.error == None
  {
    var echoed := TaskSlice.EchoOf(MarkCompleteArgs(task));
    assert TaskSlice.UpdateTaskAsync(Ok(echoed)) == [TaskSlice.Pending(TaskSlice.UpdateOp), TaskSlice.UpdateFulfilled(echoed)];
    TaskSlice.RunPair(s, TaskSlice.Pending(TaskSlice.UpdateOp), TaskSlice.UpdateFulfilled(echoed));
    var r := TaskSlice.Run(s, TaskSlice.UpdateTaskAsync(Ok(echoed)));
    forall j | 0 <= j < |s.tasks| && j != i
      ensures r.tasks[j] == s.tasks[j]
    {
      assert !TaskSlice.IsFirstWithId(s.tasks, j, task.id);
    }
  }
}

=== FILE: tasks_page.dfy ===
/**
 The task page's derived view: which tasks pass the current filters, and
 the four summary counts shown above them. Neither touches the store.
 */
module TasksPage {
  import opened TaskModel
  import opened Seqs
  import opened Strings
  import opened TaskFilters

  predicate MatchesPriority(t: Task, f: Filters)
  {
    f.priority == "" || t.priority == f.priority
  }

  /** A task without a due date never passes a date filter. */
  predicate MatchesDueDate(t: Task, f: Filters)
  {
    f.dueDate == "" || (t.dueDate.Some? && DayKey(t.dueDate.value) == f.dueDate)
  }

  predicate MatchesStatus(t: Task, f: Filters)
  {
    f.status == "" || t.status == f.status
  }

  /** Case-insensitive search in the title, or in the description when it is present and non-empty. */
  predicate MatchesSearch(t: Task, f: Filters)
  {
    || f.search == ""
    || Contains(ToLower(t.title), ToLower(f.search))
    || (Truthy(t.description) && Contains(ToLower(t.description.value), ToLower(f.search)))
  }

  predicate Matches(t: Task, f: Filters)
  {
    MatchesPriority(t, f) && MatchesDueDate(t, f) && MatchesStatus(t, f) && MatchesSearch(t, f)
  }

  function MatchesFilters(f: Filters): Task -> bool
  {
    (t: Task) => Matches(t, f)
  }

  /** `filteredTasks`: the tasks that satisfy every non-empty filter field, in store order. */
  function FilteredTasks(tasks: seq<Task>, f: Filters): (r: seq<Task>)
    ensures IsSubsequence(r, tasks)
    ensures forall i :: 0 <= i < |r| ==> r[i] in tasks && Matches(r[i], f)
    ensures forall i :: 0 <= i < |tasks| && Matches(tasks[i], f) ==> tasks[i] in r
    ensures forall t :: multiset(r)[t] == if Matches(t, f) then multiset(tasks)[t] else 0
  {
    var r := Filter(tasks, MatchesFilters(f));
    FilterIsSubsequence(tasks, MatchesFilters(f));
    assert forall t :: multiset(r)[t] == if Matches(t, f) then multiset(tasks)[t] else 0 by {
      forall t
        ensures multiset(r)[t] == if Matches(t, f) then multiset(tasks)[t] else 0
      {
        FilterMultiplicity(tasks, MatchesFilters(f), t);
      }
    }
    r
  }

  /** With the initial (all empty) filters the page shows every task. */
  lemma NoFiltersKeepsEverything(tasks: seq<Task>)
    ensures FilteredTasks(tasks, NoFilters()) == tasks
  {
    FilterKeepAll(tasks, MatchesFilters(NoFilters()));
  }

  /** `narrow` constrains at least what `wide` does: every non-empty field of `wide` is set identically in `narrow`. */
  predicate Narrows(narrow: Filters, wide: Filters)
  {
    forall field :: Get(wide, field) != "" ==> Get(narrow, field) == Get(wide, field)
  }

  lemma NarrowsMatches(narrow: Filters, wide: Filters)
    requires Narrows(narrow, wide)
    ensures forall t :: Matches(t, narrow) ==> Matches(t, wide)
  {
    assert Get(wide, PriorityField) != "" ==> Get(narrow, PriorityField) == Get(wide, PriorityField);
    assert Get(wide, DueDateField) != "" ==> Get(narrow, DueDateField) == Get(wide, DueDateField);
    assert Get(wide, StatusField) != "" ==> Get(narrow, StatusField) == Get(wide, StatusField);
    assert Get(wide, SearchField) != "" ==> Get(narrow, SearchField) == Get(wide, SearchField);
  }

  /** Adding constraints only removes tasks from the view: the result is a subsequence, never larger. */
  lemma NarrowingIsMonotone(tasks: seq<Task>, narrow: Filters, wide: Filters)
    requires Narrows(narrow, wide)
    ensures IsSubsequence(FilteredTasks(tasks, narrow), FilteredTasks(tasks, wide))
    ensures |FilteredTasks(tasks, narrow)| <= |FilteredTasks(tasks, wide)|
  {
    NarrowsMatches(narrow, wide);
    FilterMonotone(tasks, MatchesFilters(narrow), MatchesFilters(wide));
  }

  /** Setting one empty filter field is a narrowing step. */
  lemma SettingAFieldNarrows(f: Filters, field: FilterField, value: string)
    requires Get(f, field) == ""
    ensures Narrows(HandleFilterChange(f, field, value), f)
  {
  }

  /** A task with no description passes a non-empty search only through its title. */
  lemma SearchWithoutDescription(t: Task, f: Filters)
    requires !Truthy(t.description) && f.search != ""
    ensures MatchesSearch(t, f) <==> Contains(ToLower(t.title), ToLower(f.search))
  {
  }

  datatype Stats = Stats(total: nat, completed: nat, pending: nat, highPriority: nat)

  function IsComplete(t: Task): bool { t.status == Complete }
  function IsIncomplete(t: Task): bool { t.status == Incomplete }
  function IsUrgent(t: Task): bool { t.priority == High && t.status == Incomplete }

  /** The summary cards: all tasks, completed, still open, and open high-priority tasks. */
  function ComputeStats(tasks: seq<Task>): (r: Stats)
    ensures r.total == |tasks|
    ensures r.completed + r.pending <= r.total
    ensures (forall i :: 0 <= i < |tasks| ==> tasks[i].status in {Complete, Incomplete})
            ==> r.completed + r.pending == r.total
    ensures r.highPriority <= r.pending
    ensures r.completed == |set i | 0 <= i < |tasks| && tasks[i].status == Complete|
    ensures r.pending == |set i | 0 <= i < |tasks| && tasks[i].status == Incomplete|
    ensures r.highPriority == |set i | 0 <= i < |tasks| && tasks[i].priority == High && tasks[i].status == Incomplete|
  {
    CountDisjoint(tasks, IsComplete, IsIncomplete);
    FilterMonotone(tasks, IsUrgent, IsIncomplete);
    CountIsPositions(tasks, IsComplete);
    CountIsPositions(tasks, IsIncomplete);
    CountIsPositions(tasks, IsUrgent);
    assert Positions(tasks, IsComplete) == set i | 0 <= i < |tasks| && tasks[i].status == Complete;
    assert Positions(tasks, IsIncomplete) == set i | 0 <= i < |tasks| && tasks[i].status == Incomplete;
    assert Positions(tasks, IsUrgent)
        == set i | 0 <= i < |tasks| && tasks[i].priority == High && tasks[i].status == Incomplete;
    Stats(|tasks|, Count(tasks, IsComplete), Count(tasks, IsIncomplete), Count(tasks, IsUrgent))
  }
}
